=== FILE: README.md ===
# HUMLFramework selection operators and rule engine, in Dafny

This project models the core of the OpenValidation framework in two parts:

* **C# `HUMLFramework`** (`OpenValidationFramework-CSharp/OpenValidationFramework-CSharp/HUMLFramework.cs`).
  * `Operators` holds the LINQ-based rule vocabulary as pure functions over sequences: `FIRST`/`LAST` in their count, filter and single-element forms, `WHERE`, `sizeOf`, `atPosition`, `ONE_OF`/`AT_LEAST_ONE_OF`/`NONE_OF`, `EQUALS`/`NOT_EQUALS`, `EMPTY`/`NOT_EMPTY` and the `IComparable` comparisons, which are modelled over `int`.
  * `DistinctBy` is a method. Its loop grows a set of seen keys, and it is proved equal to the specification function `FirstOfEachKey`.
  * The model's `Take` and `TakeLast` return the same sequences as LINQ's; `TakeLast` recurses from the end of its source. Their contracts prove that they return the prefix and the suffix of length `min(max(count, 0), |s|)`.
  * An exception is a `Failure` value of type `ClrException`.
* **`Validation`** models the rule engine.
  * `ValidationRule`, `ValidationResult`, `Variable` and `OpenValidationSummaryError` are datatypes, because no code of the framework changes them after construction.
  * `OpenValidationSummary` (`Summary`) and `HUMLFramework` (`Framework`) are classes. Their `Errors` and `Rules` are sequence fields that `AppendError` and `AppendRule` reassign.
  * `Validate` is a method. Its loop appends one error per enabled rule whose condition holds on the model. It is proved equal to the specification function `Reported`, and lemmas give that function's properties: rule order, the firing rules, and emptiness.
* **`GetRule` is modelled as written.**
  * Its filter requires `String.IsNullOrWhiteSpace(r.Name)` before it compares names.
  * Under the ASCII case fold of this model, a rule name that contains any non-white-space character is therefore never found (`NamedRuleNeverFound`).
  * The first null-named rule reached throws `NullReferenceException` (`NullNameThrows`).
  * A blank name that equals the requested name, ignoring case, is the only way to succeed (`BlankNameFound`).
  * Without null names and without a blank name equal to the requested one, the result is the "could not be found" exception, with its exact message (`NoBlankNameNotFound`).
  * `ValidateRule` and `ExecuteRuleCondition` inherit this behaviour (`NamedRuleNeverValidated`).
* **Java `FIRST`** (`JavaFirst`), as the assertions of `OpenValidationFramework-Java/src/test/java/functions/FirstTests.java` determine it.
  * The Java implementation is not part of this model, so the overloads are specification functions: `First`, `FirstMap`, `FirstN` and `FirstMapN`.
  * A non-positive count gives `None` (Java `null`).
  * The function argument is a projection.
  * A source passed as `Object` is a `Source`: an object array, a list, or a primitive array. `Normalize` boxes primitive arrays into a tagged `Element`, and each element keeps its exact wrapper kind: `Byte` stays `Byte` and `Float` stays `Float`.
  * `UnboxBox` and `BoxUnbox` prove that boxing loses nothing.
* **`FirstAgreement`** states where the two `FIRST`s agree and where they differ. For a non-positive count, C# returns an empty array and Java returns null. The three-argument C# form filters, while the Java form projects.

The summary is modelled from HUMLFramework.cs, apart from a null `Errors` array: `Errors`, `Fields`, `HasErrors` and the de-duplication in `GeErrors`.

## Model

| member | source | states |
|---|---|---|
| Operators.Take | OpenValidationFramework-CSharp/OpenValidationFramework-CSharp/HUMLFramework.cs:211 | Enumerable.Take yields the prefix of the source whose length is min(max(count,0), length) |
| Operators.TakeLast | OpenValidationFramework-CSharp/OpenValidationFramework-CSharp/HUMLFramework.cs:236 | Enumerable.TakeLast yields the suffix of length min(max(count,0), length) |
| Operators.FirstN | OpenValidationFramework-CSharp/OpenValidationFramework-CSharp/HUMLFramework.cs:209-212 | FIRST(operand, amount) has length min(max(amount,0), sizeOf) and agrees with the source position by position: never padded, the whole source when amount exceeds it, empty for amount <= 0 |
| Operators.First | OpenValidationFramework-CSharp/OpenValidationFramework-CSharp/HUMLFramework.cs:214-217 | FIRST(operand) succeeds exactly on non-empty sources, returning element 0; on an empty source it fails with IndexOutOfRange |
| Operators.FirstWhere | OpenValidationFramework-CSharp/OpenValidationFramework-CSharp/HUMLFramework.cs:219-222 | FIRST(operand, filter, amount) is the prefix of length min(max(amount,0), count) of the filtered sequence, and every element passes the filter |
| Operators.LastN | OpenValidationFramework-CSharp/OpenValidationFramework-CSharp/HUMLFramework.cs:234-237 | LAST(operand, amount) is the suffix of length min(max(amount,0), sizeOf) |
| Operators.Last | OpenValidationFramework-CSharp/OpenValidationFramework-CSharp/HUMLFramework.cs:244-247 | LAST(operand) succeeds exactly on non-empty sources with the final element, and otherwise fails with InvalidOperation |
| Operators.LastWhere | OpenValidationFramework-CSharp/OpenValidationFramework-CSharp/HUMLFramework.cs:224-227 | LAST(operand, filter) succeeds iff some element passes, with an element of the source that passes; otherwise InvalidOperation |
| Operators.LastWhereIsLastMatch | OpenValidationFramework-CSharp/OpenValidationFramework-CSharp/HUMLFramework.cs:224-227 | LAST(operand, filter) is the element at the last index that passes, against an independent index search |
| Operators.LastWhereN | OpenValidationFramework-CSharp/OpenValidationFramework-CSharp/HUMLFramework.cs:229-232 | LAST(operand, filter, amount) is the suffix of length min(max(amount,0), count) of the filtered sequence, and all elements pass |
| Operators.FirstNThenLastN | OpenValidationFramework-CSharp/OpenValidationFramework-CSharp/HUMLFramework.cs:209-237 | the first n and the last length-n elements concatenate back to the source |
| Operators.SingleElementForms | OpenValidationFramework-CSharp/OpenValidationFramework-CSharp/HUMLFramework.cs:204-247 | on a non-empty source, FIRST and LAST equal atPosition 0 and sizeOf-1, and the count-1 forms return exactly that element |
| Operators.FilterThatKeepsAll | OpenValidationFramework-CSharp/OpenValidationFramework-CSharp/HUMLFramework.cs:219-232 | with a filter every element passes, the filtered FIRST/LAST forms equal the unfiltered ones |
| Operators.Any | OpenValidationFramework-CSharp/OpenValidationFramework-CSharp/HUMLFramework.cs:174 | Enumerable.Any holds iff some element satisfies the predicate |
| Operators.Where | OpenValidationFramework-CSharp/OpenValidationFramework-CSharp/HUMLFramework.cs:249-252 | WHERE keeps exactly the elements that pass: every output passes and comes from the source, and every passing source element is in the output |
| Operators.WhereAppend | OpenValidationFramework-CSharp/OpenValidationFramework-CSharp/HUMLFramework.cs:249-252 | filtering a concatenation is the concatenation of the filtered parts, so source order is kept |
| Operators.WhereIsSubsequence | OpenValidationFramework-CSharp/OpenValidationFramework-CSharp/HUMLFramework.cs:249-252 | the filtered sequence is a subsequence of the source |
| Operators.WhereMultiset | OpenValidationFramework-CSharp/OpenValidationFramework-CSharp/HUMLFramework.cs:249-252 | WHERE keeps every copy of a passing element and no copy of a failing one: its multiset is the source's restricted to passing elements |
| Operators.WhereAllPass | OpenValidationFramework-CSharp/OpenValidationFramework-CSharp/HUMLFramework.cs:249-252 | a filter every element passes returns the source unchanged |
| Operators.SizeOf | OpenValidationFramework-CSharp/OpenValidationFramework-CSharp/HUMLFramework.cs:199-202 | sizeOf counts one per element enumerated, which is the length of the source |
| Operators.AtPosition | OpenValidationFramework-CSharp/OpenValidationFramework-CSharp/HUMLFramework.cs:204-207 | atPosition succeeds iff 0 <= position < sizeOf, returning that element; otherwise ArgumentOutOfRange |
| Operators.OneOf | OpenValidationFramework-CSharp/OpenValidationFramework-CSharp/HUMLFramework.cs:172-175 | ONE_OF(x, xs) holds iff x occurs in xs |
| Operators.AtLeastOneOf | OpenValidationFramework-CSharp/OpenValidationFramework-CSharp/HUMLFramework.cs:177-180 | AT_LEAST_ONE_OF holds iff x occurs in xs, the same as ONE_OF |
| Operators.NoneOf | OpenValidationFramework-CSharp/OpenValidationFramework-CSharp/HUMLFramework.cs:182-185 | NONE_OF holds iff x does not occur in xs, the negation of AT_LEAST_ONE_OF |
| Operators.NotEquals | OpenValidationFramework-CSharp/OpenValidationFramework-CSharp/HUMLFramework.cs:115-118 | NOT_EQUALS(l, r) holds iff EQUALS(r, l) does not |
| Operators.NullTests | OpenValidationFramework-CSharp/OpenValidationFramework-CSharp/HUMLFramework.cs:141-148 | EMPTY holds of null and of nothing else, so an empty string or an empty array is NOT_EMPTY; exactly one of EMPTY and NOT_EMPTY holds |
| Operators.MembershipByEquals | OpenValidationFramework-CSharp/OpenValidationFramework-CSharp/HUMLFramework.cs:100-118 | ONE_OF holds iff some array element EQUALS the operand, AT_LEAST_ONE_OF is ONE_OF, NONE_OF holds iff every element is NOT_EQUALS to it; EQUALS is reflexive, symmetric and transitive (ONE_OF and NONE_OF at lines 172-185) |
| Operators.CompareTo | OpenValidationFramework-CSharp/OpenValidationFramework-CSharp/HUMLFramework.cs:150-170 | Int32.CompareTo is -1, 0 or 1 with the sign of left - right |
| Operators.LessThan | OpenValidationFramework-CSharp/OpenValidationFramework-CSharp/HUMLFramework.cs:150-153 | LESS_THAN holds iff left < right |
| Operators.GreaterThan | OpenValidationFramework-CSharp/OpenValidationFramework-CSharp/HUMLFramework.cs:155-158 | GREATER_THAN holds iff left > right |
| Operators.LessOrEquals | OpenValidationFramework-CSharp/OpenValidationFramework-CSharp/HUMLFramework.cs:160-164 | LESS_OR_EQUALS holds iff left <= right |
| Operators.GreaterOrEquals | OpenValidationFramework-CSharp/OpenValidationFramework-CSharp/HUMLFramework.cs:166-170 | GREATER_OR_EQUALS holds iff left >= right |
| Operators.ComparisonsConsistent | OpenValidationFramework-CSharp/OpenValidationFramework-CSharp/HUMLFramework.cs:150-170 | the comparisons are mutual negations and converses, and <= together with >= is EQUALS |
| Operators.FirstOfEachKey | OpenValidationFramework-CSharp/OpenValidationFramework-CSharp/HUMLFramework.cs:254-264 | what DistinctBy yields: no longer than the source, drawn from it, with the same key set and no two elements sharing a key |
| Operators.DistinctBy | OpenValidationFramework-CSharp/OpenValidationFramework-CSharp/HUMLFramework.cs:254-264 | the seenKeys loop yields exactly FirstOfEachKey of the source |
| Operators.FirstOfEachKeyIsSubsequence | OpenValidationFramework-CSharp/OpenValidationFramework-CSharp/HUMLFramework.cs:254-264 | DistinctBy yields a subsequence of its source |
| Operators.FirstOfEachKeyKeepsFirst | OpenValidationFramework-CSharp/OpenValidationFramework-CSharp/HUMLFramework.cs:259-261 | the first element with each key is kept |
| Operators.FirstOfEachKeyKeepsAllFirst | OpenValidationFramework-CSharp/OpenValidationFramework-CSharp/HUMLFramework.cs:254-264 | every first occurrence of a key is in the output |
| Operators.FirstOfEachKeyInOrder | OpenValidationFramework-CSharp/OpenValidationFramework-CSharp/HUMLFramework.cs:254-264 | on every prefix of the source, DistinctBy yields exactly the first occurrences of each key in source order, against a reference built without a seen-key set |
| Operators.FirstOccurrencesAreFirst | OpenValidationFramework-CSharp/OpenValidationFramework-CSharp/HUMLFramework.cs:254-264 | every element of the first-occurrence reference is the first element of the source with its key |
| Operators.FirstOfEachKeyOfDistinctKeys | OpenValidationFramework-CSharp/OpenValidationFramework-CSharp/HUMLFramework.cs:254-264 | with pairwise different keys, DistinctBy returns its source unchanged |
| Validation.FoldedWhiteSpace | OpenValidationFramework-CSharp/OpenValidationFramework-CSharp/HUMLFramework.cs:85-86 | under the ASCII case fold only a white-space character matches a white-space character |
| Validation.ValidationRule.HasError | OpenValidationFramework-CSharp/OpenValidationFramework-CSharp/HUMLFramework.cs:293-299 | HasError holds iff the Error text is neither null nor empty |
| Validation.ValidationRule.CreateResult | OpenValidationFramework-CSharp/OpenValidationFramework-CSharp/HUMLFramework.cs:323-327 | the result carries the rule iff the condition holds of the model, and its error is then the rule's error |
| Validation.ValidationRule.Validate | OpenValidationFramework-CSharp/OpenValidationFramework-CSharp/HUMLFramework.cs:318-321 | the result has errors iff the rule's condition holds and its Error is not null; a carried rule is the rule itself |
| Validation.ValidationRule.ExecuteCondition | OpenValidationFramework-CSharp/OpenValidationFramework-CSharp/HUMLFramework.cs:329-332 | the condition holds of the model iff Validate returns a result carrying the rule |
| Validation.RuleWithoutError | OpenValidationFramework-CSharp/OpenValidationFramework-CSharp/HUMLFramework.cs:301-307 | the constructor without an error text builds a rule that has no error and is never enabled |
| Validation.RuleWithoutErrorNeverReports | OpenValidationFramework-CSharp/OpenValidationFramework-CSharp/HUMLFramework.cs:301-307 | such a rule never reports errors and never fires in validate, whatever its condition |
| Validation.ValidationResult.HasErrors | OpenValidationFramework-CSharp/OpenValidationFramework-CSharp/HUMLFramework.cs:419-431 | HasErrors holds iff a rule is carried and its Error is not null |
| Validation.FieldsOf | OpenValidationFramework-CSharp/OpenValidationFramework-CSharp/HUMLFramework.cs:364 | a field is in the result iff it belongs to the non-null Fields of some error; the order is fixed by FieldsOfAppend |
| Validation.FieldsOfAppend | OpenValidationFramework-CSharp/OpenValidationFramework-CSharp/HUMLFramework.cs:364 | SelectMany keeps order and duplicates: the fields of a concatenation of errors are the fields of the first part followed by those of the second |
| Validation.FieldsOfFirstErrors | OpenValidationFramework-CSharp/OpenValidationFramework-CSharp/HUMLFramework.cs:360-366 | every field of the de-duplicated errors belongs to the first error with some text |
| Validation.Summary.constructor | OpenValidationFramework-CSharp/OpenValidationFramework-CSharp/HUMLFramework.cs:368-371 | a new summary has no errors |
| Validation.Summary.AppendError | OpenValidationFramework-CSharp/OpenValidationFramework-CSharp/HUMLFramework.cs:373-380 | exactly one error is added at the end, earlier errors are unchanged, and HasErrors holds afterwards |
| Validation.Summary.HasErrors | OpenValidationFramework-CSharp/OpenValidationFramework-CSharp/HUMLFramework.cs:382-388 | HasErrors holds iff Errors is non-empty |
| Validation.Summary.DistinctErrors | OpenValidationFramework-CSharp/OpenValidationFramework-CSharp/HUMLFramework.cs:390-393 | GeErrors returns, in the order of Errors, exactly the first error of each text: a subsequence of Errors with pairwise different texts, equal to the first-occurrence reference |
| Validation.Summary.Fields | OpenValidationFramework-CSharp/OpenValidationFramework-CSharp/HUMLFramework.cs:360-366 | a field is in Fields iff it belongs to the non-null Fields of the first error with some error text: fields of the errors GeErrors drops do not appear unless an error that GeErrors keeps (the first with its text) carries them |
| Validation.DistinctTextsKeepAllFields | OpenValidationFramework-CSharp/OpenValidationFramework-CSharp/HUMLFramework.cs:360-393 | when all error texts differ, GeErrors is Errors and Fields holds all their fields |
| Validation.RepeatedTextDropsLaterFields | OpenValidationFramework-CSharp/OpenValidationFramework-CSharp/HUMLFramework.cs:360-393 | of two errors with the same text, only the first one's fields reach Fields |
| Validation.ReportedAppend | OpenValidationFramework-CSharp/OpenValidationFramework-CSharp/HUMLFramework.cs:31-46 | the errors from a concatenation of rule lists are those of the first list followed by those of the second, so errors follow Rules order |
| Validation.ReportedOfEnabled | OpenValidationFramework-CSharp/OpenValidationFramework-CSharp/HUMLFramework.cs:68-71 | filtering with getEnabledRules first does not change what is reported |
| Validation.ReportedAreFiringRules | OpenValidationFramework-CSharp/OpenValidationFramework-CSharp/HUMLFramework.cs:31-46 | the j-th error is the Error and Fields of the j-th enabled rule whose condition holds, and there is one error per such rule |
| Validation.ReportedEmptyIff | OpenValidationFramework-CSharp/OpenValidationFramework-CSharp/HUMLFramework.cs:27-49 | no error is reported iff no enabled rule's condition holds |
| Validation.ReportedAfterAppend | OpenValidationFramework-CSharp/OpenValidationFramework-CSharp/HUMLFramework.cs:19-49 | appending a rule adds at most that rule's own error, at the end |
| Validation.SelectRule | OpenValidationFramework-CSharp/OpenValidationFramework-CSharp/HUMLFramework.cs:83-94 | GetRule's filter as written: a rule it finds is in Rules and has a non-null, white-space-only name equal to ruleName ignoring case; it fails only with NullReference or the "could not be found" exception |
| Validation.NamedRuleNeverFound | OpenValidationFramework-CSharp/OpenValidationFramework-CSharp/HUMLFramework.cs:85-86 | under the ASCII case fold, a rule name with any non-white-space character is never found, whatever the rules are |
| Validation.NoBlankNameNotFound | OpenValidationFramework-CSharp/OpenValidationFramework-CSharp/HUMLFramework.cs:83-94 | with no null name among the rules and no blank name equal to ruleName ignoring case, GetRule throws "Rule with name: \"<name>\" could not be found." |
| Validation.NullNameThrows | OpenValidationFramework-CSharp/OpenValidationFramework-CSharp/HUMLFramework.cs:85-87 | reaching a null-named rule before any match throws NullReferenceException |
| Validation.BlankNameFound | OpenValidationFramework-CSharp/OpenValidationFramework-CSharp/HUMLFramework.cs:83-91 | the first blank-named rule matching ruleName, reached before any null name, is returned |
| Validation.Framework.constructor | OpenValidationFramework-CSharp/OpenValidationFramework-CSharp/HUMLFramework.cs:12-14 | a new framework has no rules |
| Validation.Framework.AppendRule | OpenValidationFramework-CSharp/OpenValidationFramework-CSharp/HUMLFramework.cs:19-24 | the rule built from the arguments is returned and added at the end of Rules, earlier rules unchanged |
| Validation.Framework.EnabledRules | OpenValidationFramework-CSharp/OpenValidationFramework-CSharp/HUMLFramework.cs:68-71 | getEnabledRules is the subsequence of Rules holding exactly the rules that are not disabled and have a non-empty Error, each enabled rule as many times as in Rules |
| Validation.Framework.Validate | OpenValidationFramework-CSharp/OpenValidationFramework-CSharp/HUMLFramework.cs:27-49 | validate returns a fresh summary whose errors are exactly Reported(Rules, model), and HasErrors holds iff some enabled rule's condition holds |
| Validation.Framework.GetRule | OpenValidationFramework-CSharp/OpenValidationFramework-CSharp/HUMLFramework.cs:83-94 | a found rule is in Rules, has a non-null blank name and equals ruleName ignoring case under the ASCII fold; failures are NullReference or "could not be found" |
| Validation.Framework.ValidateRule | OpenValidationFramework-CSharp/OpenValidationFramework-CSharp/HUMLFramework.cs:51-60 | fails exactly when GetRule fails, with its exception; otherwise returns a result carrying the rule iff its condition holds and its Error is not null, and null otherwise |
| Validation.Framework.ExecuteRuleCondition | OpenValidationFramework-CSharp/OpenValidationFramework-CSharp/HUMLFramework.cs:62-66 | fails exactly when GetRule fails; otherwise it is the found rule's condition on the model |
| Validation.Framework.CreateVariable | OpenValidationFramework-CSharp/OpenValidationFramework-CSharp/HUMLFramework.cs:73-76 | the variable carries the given name |
| Validation.Framework.CreateComputedVariable | OpenValidationFramework-CSharp/OpenValidationFramework-CSharp/HUMLFramework.cs:78-81 | the variable carries the given name |
| Validation.VariableValues | OpenValidationFramework-CSharp/OpenValidationFramework-CSharp/HUMLFramework.cs:335-354 | GetValue of a constant variable is its value for every model; GetValue of a computed one is its function applied to the model |
| Validation.NamedRuleNeverValidated | OpenValidationFramework-CSharp/OpenValidationFramework-CSharp/HUMLFramework.cs:51-66 | under the ASCII case fold, ValidateRule and ExecuteRuleCondition fail for every rule name with a non-white-space character |
| JavaFirst.Box | OpenValidationFramework-Java/src/test/java/functions/FirstTests.java:421-504 | boxing a primitive array keeps its length, and every element gets its array's own wrapper kind |
| JavaFirst.UnboxBox | OpenValidationFramework-Java/src/test/java/functions/FirstTests.java:421-504 | unboxing a boxed primitive array with its own kind gives the array back |
| JavaFirst.BoxUnbox | OpenValidationFramework-Java/src/test/java/functions/FirstTests.java:421-504 | whatever unboxes to a primitive array is that array boxed, and the array has the requested kind |
| JavaFirst.Normalize | OpenValidationFramework-Java/src/test/java/functions/FirstTests.java:204-504 | object arrays and lists pass through unchanged; a primitive array's view has its length, its element kind, and unboxes back to it |
| JavaFirst.FirstMapN | OpenValidationFramework-Java/src/test/java/functions/FirstTests.java:77-89 | FIRST(source, f, n) is null iff n <= 0; otherwise it has min(n, length) entries and entry i is f(source[i]) |
| JavaFirst.FirstN | OpenValidationFramework-Java/src/test/java/functions/FirstTests.java:64-126 | FIRST(source, n) is null iff n <= 0; otherwise it is the prefix of length min(n, length), never padded |
| JavaFirst.FirstMap | OpenValidationFramework-Java/src/test/java/functions/FirstTests.java:52-62 | FIRST(source, f) succeeds iff the source is non-empty, and its value is the single entry of FIRST(source, f, 1) |
| JavaFirst.First | OpenValidationFramework-Java/src/test/java/functions/FirstTests.java:44-50 | FIRST(source) succeeds iff the source is non-empty, returning element 0 |
| JavaFirst.FirstObject | OpenValidationFramework-Java/src/test/java/functions/FirstTests.java:204-504 | FIRST of an Object source succeeds iff its view is non-empty; a primitive array's first element has the array's wrapper kind; an object array or list gives its own first element |
| JavaFirst.ProjectionAfterSelection | OpenValidationFramework-Java/src/test/java/functions/FirstTests.java:52-89 | the projecting overloads are the plain ones followed by f: a projection, not a filter |
| JavaFirst.LargeCountGivesAll | OpenValidationFramework-Java/src/test/java/functions/FirstTests.java:91-101 | a positive count of at least the length returns the whole source |
| JavaFirst.FirstOfPrimitiveArray | OpenValidationFramework-Java/src/test/java/functions/FirstTests.java:421-504 | FIRST of each primitive array kind is its element 0 in its own wrapper, with no widening |
| JavaFirst.TypedScenarios | OpenValidationFramework-Java/src/test/java/functions/FirstTests.java:44-202 | the asserted results: "Harry"; Bob's married flag false; [Bob, Ross]; ages [24, 42]; length 3 for n = 4; null for 0 and -1; [1, 2] |
| JavaFirst.BoxedArrayAsObjectScenarios | OpenValidationFramework-Java/src/test/java/functions/FirstTests.java:204-302 | the nine boxed arrays passed as Object return their first element with the same wrapper kind |
| JavaFirst.BoxedListAsObjectScenarios | OpenValidationFramework-Java/src/test/java/functions/FirstTests.java:305-417 | the eight boxed lists passed as Object return their first element with the same wrapper kind |
| JavaFirst.PrimitiveAsObjectScenarios | OpenValidationFramework-Java/src/test/java/functions/FirstTests.java:421-504 | primitive arrays passed as Object return their first element in its own wrapper |
| FirstAgreement.CountedFirst | OpenValidationFramework-CSharp/OpenValidationFramework-CSharp/HUMLFramework.cs:209-212 | for n > 0 the Java FIRST(s, n) is the C# prefix; for n <= 0 C# gives an empty array and Java gives null |
| FirstAgreement.SingleFirst | OpenValidationFramework-CSharp/OpenValidationFramework-CSharp/HUMLFramework.cs:214-217 | the C# and Java FIRST(s) succeed on the same sources, with the same element |
| FirstAgreement.FilterVersusProjection | OpenValidationFramework-CSharp/OpenValidationFramework-CSharp/HUMLFramework.cs:219-222 | on Bob, Ross and Batman with the married flag and n = 2, C# filters to [Ross] and Java projects to [false, true] |

## Left out

- `EQUALS(Object, Object)` and `IsNumericType` (HUMLFramework.cs:105-139): they cast to `double` and dispatch on the runtime type code. That is floating point and reflection.
- `LAST(operand, double amount)` (HUMLFramework.cs:239-242): the float-to-int truncation is floating point.
- `SUM_OF` (HUMLFramework.cs:187-192): `Convert.ToDecimal` conversion and decimal arithmetic.
- `getArrayOf` (HUMLFramework.cs:194-197): on a sequence it is the identity.
- The `try`/`catch` in `validate` (HUMLFramework.cs:42-45) that appends `ex.Message`: conditions are total functions here, so no rule throws.
- `OfType<ValidationRule<T>>` (HUMLFramework.cs:70) and the `as ValidationRule<T>` cast (HUMLFramework.cs:91): every rule of a framework is for the single model type `M`.
- `InvariantCultureIgnoreCase` (HUMLFramework.cs:86): the comparison folds only ASCII letters. Culture tables are outside the model, and so are the code points the invariant culture ignores when comparing, such as the soft hyphen U+00AD; under that culture a blank name could equal a name holding only such characters, which the "never found" results above do not cover.
- C# nulls the framework does not produce itself are not modelled: a null `params` array, null elements compared with `Equals`, a null `ruleName`, a null error text passed to `AppendError`, and `Errors` set to null through its public setter. The public setters of rule properties are not modelled either, because no code of the framework calls them.
- `IOpenValidator` (HUMLFramework.cs:270-273): an interface without an implementation here.
- `ShortValidatorTest.java`: `ShortArrayValidator` and `ShortModel` are not part of this model. The test checks only the summary envelope.
- The `Person.equals` boilerplate and JUnit mechanics of `FirstTests.java`: `Person` is a datatype, so equality is value equality.
- Java `FIRST` on an empty source: no shown assertion covers it. The model fails with `EmptySource`.
- Java sources that are a bare scalar passed as `Object`, mappings (a shape-rejection error), and lazy or unbounded sources: no shown code or assertion covers them.
- Java `float` and `double` are kept as bit patterns, and `char` as a UTF-16 code unit. No arithmetic is done on them.
- Validation.Framework.CreateVariable: its contract states only the name. The value for every model is stated per model by `Validation.VariableValues`, because a function contract cannot quantify over all values of an arbitrary model type.
- Validation.Framework.CreateComputedVariable: as for `CreateVariable`, `Validation.VariableValues` states the value.

=== FILE: first_agreement.dfy ===
/**
  Where the C# FIRST (HUMLFramework.cs) and the Java FIRST (as FirstTests.java
  pins it down) agree and where they do not.  The two are kept apart: C# gives
  an empty array for a non-positive count and filters with its function
  argument; Java gives null and projects.
*/
module FirstAgreement {
  import opened Wrappers
  import Operators
  import JavaFirst

  /** For a positive count both return the same prefix; otherwise C# gives an empty array and Java null. */
  lemma CountedFirst<T>(s: seq<T>, n: int)
    ensures n > 0 ==> JavaFirst.FirstN(s, n) == Some(Operators.FirstN(s, n))
    ensures n <= 0 ==> Operators.FirstN(s, n) == [] && JavaFirst.FirstN(s, n) == None
  {
  }

  /** The single-element FIRST succeeds on the same sources in both, with the same element. */
  lemma SingleFirst<T>(s: seq<T>)
    ensures Operators.First(s).Success? <==> JavaFirst.First(s).Success?
    ensures Operators.First(s).Success? ==> Operators.First(s).value == JavaFirst.First(s).value
  {
  }

  /** The three-argument FIRST: C# keeps the elements that pass, Java maps every element. */
  lemma FilterVersusProjection()
    ensures Operators.FirstWhere([JavaFirst.Bob, JavaFirst.Ross, JavaFirst.Batman], (p: JavaFirst.Person) => p.married, 2)
      == [JavaFirst.Ross]
    ensures JavaFirst.FirstMapN([JavaFirst.Bob, JavaFirst.Ross, JavaFirst.Batman], (p: JavaFirst.Person) => p.married, 2)
      == Some([false, true])
  {
    var people := [JavaFirst.Bob, JavaFirst.Ross, JavaFirst.Batman];
    var married := (p: JavaFirst.Person) => p.married;
    assert people[..2] == [JavaFirst.Bob, JavaFirst.Ross];
    var first, firstTwo := people[..1], people[..2];
    assert firstTwo[..1] == first && first[..0] == [];
    assert Operators.Where(first, married) == [];
    assert Operators.Where(firstTwo, married) == [JavaFirst.Ross];
    assert Operators.Where(people, married) == [JavaFirst.Ross];
    assert JavaFirst.Project([JavaFirst.Bob, JavaFirst.Ross], married) == [false, true];
  }
}

=== FILE: java_first.dfy ===
/**
  The FIRST family of the Java HUMLFramework, as its test suite pins it down
  (FirstTests.java).  A Java array or List of objects handed to a typed
  overload is a `seq<T>`; a source handed over as `Object` is a `Source`
  whose elements carry their boxed Java type.  `null` results are `None`.
*/
module JavaFirst {
  import opened Wrappers

  // ---------------------------------------------------------------------
  // Java values
  // ---------------------------------------------------------------------

  newtype JByte = x: int | -0x80 <= x < 0x80
  newtype JShort = x: int | -0x8000 <= x < 0x8000
  newtype JInt = x: int | -0x8000_0000 <= x < 0x8000_0000
  newtype JLong = x: int | -0x8000_0000_0000_0000 <= x < 0x8000_0000_0000_0000
  /** A UTF-16 code unit. */
  newtype JChar = x: int | 0 <= x < 0x1_0000

  /** A boxed Java value: each wrapper class keeps its exact primitive type; anything else is an object. */
  datatype Element<O> =
    | Bool(z: bool)
    | Byte(b: JByte)
    | Short(s: JShort)
    | Int(i: JInt)
    | Long(j: JLong)
    | Float(fbits: bv32)   // an IEEE 754 single, kept as its bit pattern
    | Double(dbits: bv64)  // an IEEE 754 double, kept as its bit pattern
    | Char(c: JChar)
    | Obj(o: O)

  /** The dynamic type of a boxed value, as `instanceof` sees it. */
  datatype Kind = BoolKind | ByteKind | ShortKind | IntKind | LongKind | FloatKind | DoubleKind | CharKind | ObjKind

  function KindOf<O>(e: Element<O>): Kind
  {
    match e
    case Bool(_) => BoolKind
    case Byte(_) => ByteKind
    case Short(_) => ShortKind
    case Int(_) => IntKind
    case Long(_) => LongKind
    case Float(_) => FloatKind
    case Double(_) => DoubleKind
    case Char(_) => CharKind
    case Obj(_) => ObjKind
  }

  /** A Java primitive array: boolean[], byte[], short[], int[], long[], float[], double[] or char[]. */
  datatype PrimitiveArray =
    | Booleans(zs: seq<bool>)
    | Bytes(bs: seq<JByte>)
    | Shorts(ss: seq<JShort>)
    | Ints(ns: seq<JInt>)
    | Longs(js: seq<JLong>)
    | Floats(fs: seq<bv32>)
    | Doubles(ds: seq<bv64>)
    | Chars(cs: seq<JChar>)

  /** The wrapper kind of the elements of a primitive array. */
  function ElementKind(a: PrimitiveArray): Kind
  {
    match a
    case Booleans(_) => BoolKind
    case Bytes(_) => ByteKind
    case Shorts(_) => ShortKind
    case Ints(_) => IntKind
    case Longs(_) => LongKind
    case Floats(_) => FloatKind
    case Doubles(_) => DoubleKind
    case Chars(_) => CharKind
  }

  function Length(a: PrimitiveArray): nat
  {
    match a
    case Booleans(zs) => |zs|
    case Bytes(bs) => |bs|
    case Shorts(ss) => |ss|
    case Ints(ns) => |ns|
    case Longs(js) => |js|
    case Floats(fs) => |fs|
    case Doubles(ds) => |ds|
    case Chars(cs) => |cs|
  }

  /** A value handed to FIRST as `Object`: an array of a reference type, a List, or a primitive array. */
  datatype Source<O> =
    | ObjectArray(items: seq<Element<O>>)
    | ObjectList(items: seq<Element<O>>)
    | Primitives(primitives: PrimitiveArray)

  // ---------------------------------------------------------------------
  // Normalisation
  // ---------------------------------------------------------------------

  /** Boxing a primitive array element by element, each into the wrapper of its own primitive type. */
  function Box<O>(a: PrimitiveArray): (r: seq<Element<O>>)
    ensures |r| == Length(a)
    ensures forall i :: 0 <= i < |r| ==> KindOf(r[i]) == ElementKind(a)
  {
    match a
    case Booleans(zs) => seq(|zs|, i requires 0 <= i < |zs| => Bool(zs[i]))
    case Bytes(bs) => seq(|bs|, i requires 0 <= i < |bs| => Byte(bs[i]))
    case Shorts(ss) => seq(|ss|, i requires 0 <= i < |ss| => Short(ss[i]))
    case Ints(ns) => seq(|ns|, i requires 0 <= i < |ns| => Int(ns[i]))
    case Longs(js) => seq(|js|, i requires 0 <= i < |js| => Long(js[i]))
    case Floats(fs) => seq(|fs|, i requires 0 <= i < |fs| => Float(fs[i]))
    case Doubles(ds) => seq(|ds|, i requires 0 <= i < |ds| => Double(ds[i]))
    case Chars(cs) => seq(|cs|, i requires 0 <= i < |cs| => Char(cs[i]))
  }

  /** Reading boxed values back into a primitive array of `kind`; fails unless every element has that kind. */
  function Unbox<O>(kind: Kind, es: seq<Element<O>>): Option<PrimitiveArray>
  {
    if kind == ObjKind || !(forall i :: 0 <= i < |es| ==> KindOf(es[i]) == kind) then None
    else
      match kind
      case BoolKind => Some(Booleans(seq(|es|, i requires 0 <= i < |es| => es[i].z)))
      case ByteKind => Some(Bytes(seq(|es|, i requires 0 <= i < |es| => es[i].b)))
      case ShortKind => Some(Shorts(seq(|es|, i requires 0 <= i < |es| => es[i].s)))
      case IntKind => Some(Ints(seq(|es|, i requires 0 <= i < |es| => es[i].i)))
      case LongKind => Some(Longs(seq(|es|, i requires 0 <= i < |es| => es[i].j)))
      case FloatKind => Some(Floats(seq(|es|, i requires 0 <= i < |es| => es[i].fbits)))
      case DoubleKind => Some(Doubles(seq(|es|, i requires 0 <= i < |es| => es[i].dbits)))
      case CharKind => Some(Chars(seq(|es|, i requires 0 <= i < |es| => es[i].c)))
  }

  /** Boxing loses nothing: unboxing with the array's own kind gives the array back. */
  lemma UnboxBox<O>(a: PrimitiveArray)
    ensures Unbox<O>(ElementKind(a), Box<O>(a)) == Some(a)
  {
    match a
    case Booleans(zs) => assert Unbox<O>(BoolKind, Box<O>(a)).value.zs == zs;
    case Bytes(bs) => assert Unbox<O>(ByteKind, Box<O>(a)).value.bs == bs;
    case Shorts(ss) => assert Unbox<O>(ShortKind, Box<O>(a)).value.ss == ss;
    case Ints(ns) => assert Unbox<O>(IntKind, Box<O>(a)).value.ns == ns;
    case Longs(js) => assert Unbox<O>(LongKind, Box<O>(a)).value.js == js;
    case Floats(fs) => assert Unbox<O>(FloatKind, Box<O>(a)).value.fs == fs;
    case Doubles(ds) => assert Unbox<O>(DoubleKind, Box<O>(a)).value.ds == ds;
    case Chars(cs) => assert Unbox<O>(CharKind, Box<O>(a)).value.cs == cs;
  }

  /** Whatever unboxes into a primitive array is that array boxed. */
  lemma BoxUnbox<O>(kind: Kind, es: seq<Element<O>>)
    requires Unbox(kind, es).Some?
    ensures Box<O>(Unbox(kind, es).value) == es
    ensures ElementKind(Unbox(kind, es).value) == kind
  {
    var b := Box<O>(Unbox(kind, es).value);
    assert |b| == |es|;
    forall i | 0 <= i < |es| ensures b[i] == es[i] {
      assert KindOf(es[i]) == kind;
    }
  }

  /** The ordered view FIRST works on: object arrays and lists as they are, primitive arrays boxed. */
  function Normalize<O>(src: Source<O>): (view: seq<Element<O>>)
    ensures src.Primitives? ==> |view| == Length(src.primitives)
    ensures src.Primitives? ==> forall i :: 0 <= i < |view| ==> KindOf(view[i]) == ElementKind(src.primitives)
    ensures src.Primitives? ==> Unbox(ElementKind(src.primitives), view) == Some(src.primitives)
    ensures !src.Primitives? ==> view == src.items
  {
    match src
    case ObjectArray(items) => items
    case ObjectList(items) => items
    case Primitives(a) => UnboxBox<O>(a); Box(a)
  }

  // ---------------------------------------------------------------------
  // The FIRST overloads
  // ---------------------------------------------------------------------

  /** The failure of a single-element FIRST on a source without elements. */
  datatype SelectError = EmptySource

  /** `f` applied to every element, order kept. */
  function Project<T, R>(s: seq<T>, f: T -> R): (r: seq<R>)
    ensures |r| == |s|
  {
    seq(|s|, i requires 0 <= i < |s| => f(s[i]))
  }

  /** FIRST(source, f, n): `f` of each of the first n elements; null for a non-positive n. */
  function FirstMapN<T, R>(s: seq<T>, f: T -> R, n: int): (r: Option<seq<R>>)
    ensures r.None? <==> n <= 0
    ensures r.Some? ==> |r.value| == Min(n, |s|)
    ensures r.Some? ==> forall i :: 0 <= i < |r.value| ==> r.value[i] == f(s[i])
  {
    if n <= 0 then None else Some(Project(s[..Min(n, |s|)], f))
  }

  /** FIRST(source, n): the first n elements, all of them when n exceeds the length; null for a non-positive n. */
  function FirstN<T>(s: seq<T>, n: int): (r: Option<seq<T>>)
    ensures r.None? <==> n <= 0
    ensures r.Some? ==> |r.value| == Min(n, |s|) && r.value == s[..|r.value|]
  {
    FirstMapN(s, x => x, n)
  }

  /** FIRST(source, f): `f` of the first element; a projection, not a filter. */
  function FirstMap<T, R>(s: seq<T>, f: T -> R): (r: Result<R, SelectError>)
    ensures r.Success? <==> |s| > 0
    ensures r.Success? ==> FirstMapN(s, f, 1) == Some([r.value])
  {
    if |s| == 0 then Failure(EmptySource)
    else
      assert Project(s[..1], f) == [f(s[0])];
      Success(f(s[0]))
  }

  /** FIRST(source): the first element. */
  function First<T>(s: seq<T>): (r: Result<T, SelectError>)
    ensures r.Success? <==> |s| > 0
    ensures r.Success? ==> r.value == s[0]
    ensures r.Failure? ==> FirstN(s, 1) == Some([])
  {
    FirstMap(s, x => x)
  }

  /** FIRST(source) for a source handed over as Object: the first element of the normalised view. */
  function FirstObject<O>(src: Source<O>): (r: Result<Element<O>, SelectError>)
    ensures r.Success? <==> |Normalize(src)| > 0
    ensures r.Success? && src.Primitives? ==> KindOf(r.value) == ElementKind(src.primitives)
    ensures r.Success? && !src.Primitives? ==> r.value == src.items[0]
  {
    First(Normalize(src))
  }

  // ---------------------------------------------------------------------
  // Properties
  // ---------------------------------------------------------------------

  /** The projecting overloads are the plain ones followed by `f`: nothing is filtered out. */
  lemma ProjectionAfterSelection<T, R>(s: seq<T>, f: T -> R, n: int)
    ensures FirstMapN(s, f, n).Some? <==> FirstN(s, n).Some?
    ensures FirstN(s, n).Some? ==> FirstMapN(s, f, n) == Some(Project(FirstN(s, n).value, f))
    ensures FirstMap(s, f) == (if First(s).Success? then Success(f(First(s).value)) else Failure(EmptySource))
  {
  }

  /** A count of at least the length gives the whole source, never padded. */
  lemma LargeCountGivesAll<T>(s: seq<T>, n: int)
    requires n >= |s| && n > 0
    ensures FirstN(s, n) == Some(s)
  {
    assert s[..|s|] == s;
  }

  /** FIRST of a primitive array handed over as Object is its first element, boxed into its own wrapper. */
  lemma FirstOfPrimitiveArray<O>(a: PrimitiveArray)
    requires Length(a) > 0
    ensures match a
      case Booleans(zs) => FirstObject<O>(Primitives(a)) == Success(Bool(zs[0]))
      case Bytes(bs) => FirstObject<O>(Primitives(a)) == Success(Byte(bs[0]))
      case Shorts(ss) => FirstObject<O>(Primitives(a)) == Success(Short(ss[0]))
      case Ints(ns) => FirstObject<O>(Primitives(a)) == Success(Int(ns[0]))
      case Longs(js) => FirstObject<O>(Primitives(a)) == Success(Long(js[0]))
      case Floats(fs) => FirstObject<O>(Primitives(a)) == Success(Float(fs[0]))
      case Doubles(ds) => FirstObject<O>(Primitives(a)) == Success(Double(ds[0]))
      case Chars(cs) => FirstObject<O>(Primitives(a)) == Success(Char(cs[0]))
  {
  }

  // ---------------------------------------------------------------------
  // The scenarios of the test suite
  // ---------------------------------------------------------------------

  /** The test suite's Person: compared by name, age and married flag. */
  datatype Person = Person(name: string, age: int, married: bool)

  const Bob := Person("Bob", 24, false)
  const Ross := Person("Ross", 42, true)
  const Batman := Person("Batman", 38, false)

  // IEEE 754 bit patterns of 1, 2 and 3
  const FloatOne: bv32 := 0x3F80_0000
  const FloatTwo: bv32 := 0x4000_0000
  const FloatThree: bv32 := 0x4040_0000
  const DoubleOne: bv64 := 0x3FF0_0000_0000_0000
  const DoubleTwo: bv64 := 0x4000_0000_0000_0000
  const DoubleThree: bv64 := 0x4008_0000_0000_0000
  const LetterA: JChar := 0x61

  /** The typed overloads on String, Person and Integer arrays and lists. */
  lemma TypedScenarios()
    ensures First(["Harry", "Hermione", "Ron"]) == Success("Harry")
    ensures FirstMap([Bob, Ross], (p: Person) => p.married) == Success(false)
    ensures FirstN([Bob, Ross, Batman], 2) == Some([Bob, Ross])
    ensures FirstMapN([Bob, Ross, Batman], (p: Person) => p.age, 2) == Some([24, 42])
    ensures FirstN([Bob, Ross, Batman], 4).Some? && |FirstN([Bob, Ross, Batman], 4).value| == 3
    ensures FirstN([Bob, Ross, Batman], 0) == None
    ensures FirstN([Bob, Ross, Batman], -1) == None
    ensures FirstN([1, 2, 3], 2) == Some([1, 2])
  {
    assert [Bob, Ross, Batman][..2] == [Bob, Ross];
    assert [1, 2, 3][..2] == [1, 2];
    assert Project([Bob, Ross], (p: Person) => p.age) == [24, 42];
  }

  /** Boxed arrays handed over as Object keep the wrapper type of their elements. */
  lemma BoxedArrayAsObjectScenarios()
    ensures FirstObject(ObjectArray([Int(1), Int(2), Int(3)])) == Success(Element<string>.Int(1))
    ensures FirstObject(ObjectArray([Bool(true), Bool(true), Bool(false)])) == Success(Element<string>.Bool(true))
    ensures FirstObject(ObjectArray([Obj("name1"), Obj("name2"), Obj("name3")])) == Success(Obj("name1"))
    ensures FirstObject(ObjectArray([Byte(1), Byte(2), Byte(3)])) == Success(Element<string>.Byte(1))
    ensures FirstObject(ObjectArray([Short(1), Short(2), Short(3)])) == Success(Element<string>.Short(1))
    ensures FirstObject(ObjectArray([Long(1), Long(2), Long(3)])) == Success(Element<string>.Long(1))
    ensures FirstObject(ObjectArray([Float(FloatOne), Float(FloatTwo), Float(FloatThree)]))
      == Success(Element<string>.Float(FloatOne))
    ensures FirstObject(ObjectArray([Double(DoubleOne), Double(DoubleTwo), Double(DoubleThree)]))
      == Success(Element<string>.Double(DoubleOne))
    ensures FirstObject(ObjectArray([Char(LetterA), Char(LetterA + 1), Char(LetterA + 2)]))
      == Success(Element<string>.Char(LetterA))
  {
  }

  /** Lists of boxed values handed over as Object keep the wrapper type of their elements. */
  lemma BoxedListAsObjectScenarios()
    ensures FirstObject(ObjectList([Int(1), Int(2), Int(3)])) == Success(Element<string>.Int(1))
    ensures FirstObject(ObjectList([Byte(1), Byte(2), Byte(3)])) == Success(Element<string>.Byte(1))
    ensures FirstObject(ObjectList([Short(1), Short(2), Short(3)])) == Success(Element<string>.Short(1))
    ensures FirstObject(ObjectList([Long(1), Long(2), Long(3)])) == Success(Element<string>.Long(1))
    ensures FirstObject(ObjectList([Float(FloatOne), Float(FloatTwo), Float(FloatThree)]))
      == Success(Element<string>.Float(FloatOne))
    ensures FirstObject(ObjectList([Double(DoubleOne), Double(DoubleTwo), Double(DoubleThree)]))
      == Success(Element<string>.Double(DoubleOne))
    ensures FirstObject(ObjectList([Char(LetterA), Char(LetterA + 1), Char(LetterA + 2)]))
      == Success(Element<string>.Char(LetterA))
    ensures FirstObject(ObjectList([Bool(true), Bool(false), Bool(false)])) == Success(Element<string>.Bool(true))
  {
  }

  /** Primitive arrays handed over as Object: the first element comes back in its own wrapper. */
  lemma PrimitiveAsObjectScenarios()
    ensures FirstObject<string>(Primitives(Booleans([true, true, false]))) == Success(Bool(true))
    ensures FirstObject<string>(Primitives(Bytes([1, 2, 3]))) == Success(Byte(1))
    ensures FirstObject<string>(Primitives(Shorts([1, 2, 3]))) == Success(Short(1))
    ensures FirstObject<string>(Primitives(Ints([1, 2, 3]))) == Success(Int(1))
    ensures FirstObject<string>(Primitives(Longs([1, 2, 3]))) == Success(Long(1))
    ensures FirstObject<string>(Primitives(Floats([FloatOne, FloatTwo, FloatThree]))) == Success(Float(FloatOne))
    ensures FirstObject<string>(Primitives(Doubles([DoubleOne, DoubleTwo, DoubleThree]))) == Success(Double(DoubleOne))
    ensures FirstObject<string>(Primitives(Chars([LetterA, LetterA + 1, LetterA + 2]))) == Success(Char(LetterA))
  {
    FirstOfPrimitiveArray<string>(Booleans([true, true, false]));
    FirstOfPrimitiveArray<string>(Bytes([1, 2, 3]));
    FirstOfPrimitiveArray<string>(Shorts([1, 2, 3]));
    FirstOfPrimitiveArray<string>(Ints([1, 2, 3]));
    FirstOfPrimitiveArray<string>(Longs([1, 2, 3]));
    FirstOfPrimitiveArray<string>(Floats([FloatOne, FloatTwo, FloatThree]));
    FirstOfPrimitiveArray<string>(Doubles([DoubleOne, DoubleTwo, DoubleThree]));
    FirstOfPrimitiveArray<string>(Chars([LetterA, LetterA + 1, LetterA + 2]));
  }
}

=== FILE: operators.dfy ===
/**
  The sequence and comparison operators of the C# HUMLFramework
  (HUMLFramework.cs, region "comparison methods").  Every operand that the
  C# code receives as an `IEnumerable<T>` or a `T[]` is a `seq<T>` here; the
  exceptions LINQ and array indexing raise are `Failure` values.
*/
module Operators {
  import opened Wrappers

  /** The .NET exceptions the framework raises or lets escape. */
  datatype ClrException =
    | IndexOutOfRange      // indexing an array past its end
    | InvalidOperation     // Enumerable.Last on a sequence with no elements
    | ArgumentOutOfRange   // Enumerable.ElementAt outside 0 .. Count - 1
    | NullReference        // an instance method called on a null string
    | Exception(message: string)

  // ---------------------------------------------------------------------
  // LINQ building blocks: the same sequences LINQ returns, TakeLast
  // recursing from the end of its source
  // ---------------------------------------------------------------------

  /** Enumerable.Take: yield elements from the front while the count is positive. */
  function Take<T>(s: seq<T>, count: int): (r: seq<T>)
    ensures |r| == Min(Max(count, 0), |s|)
    ensures r == s[..|r|]
    decreases |s|
  {
    if count <= 0 || s == [] then [] else [s[0]] + Take(s[1..], count - 1)
  }

  /** Enumerable.TakeLast: the last `count` elements, none for a non-positive count. */
  function TakeLast<T>(s: seq<T>, count: int): (r: seq<T>)
    ensures |r| == Min(Max(count, 0), |s|)
    ensures r == s[|s| - |r|..]
    decreases |s|
  {
    if count <= 0 || s == [] then [] else TakeLast(s[..|s| - 1], count - 1) + [s[|s| - 1]]
  }

  /** Enumerable.Any: some element satisfies `p`. */
  function Any<T>(s: seq<T>, p: T -> bool): (b: bool)
    ensures b <==> exists i :: 0 <= i < |s| && p(s[i])
    decreases |s|
  {
    if s == [] then false else p(s[0]) || Any(s[1..], p)
  }

  /** `r` is `s` with some elements removed and the rest kept in order. */
  ghost predicate IsSubsequence<T>(r: seq<T>, s: seq<T>)
    decreases |s|
  {
    if r == [] then true
    else if s == [] then false
    else
      || IsSubsequence(r, s[..|s| - 1])
      || (r[|r| - 1] == s[|s| - 1] && IsSubsequence(r[..|r| - 1], s[..|s| - 1]))
  }

  /** Extending `s` at the end keeps every subsequence of `s` a subsequence. */
  lemma SubsequenceOfLonger<T>(r: seq<T>, s: seq<T>, x: T)
    requires IsSubsequence(r, s)
    ensures IsSubsequence(r, s + [x])
  {
    assert (s + [x])[..|s|] == s;
  }

  /** Extending both sides by the same element keeps the relation. */
  lemma SubsequenceBothLonger<T>(r: seq<T>, s: seq<T>, x: T)
    requires IsSubsequence(r, s)
    ensures IsSubsequence(r + [x], s + [x])
  {
    assert (s + [x])[..|s|] == s;
    assert (r + [x])[..|r|] == r;
  }

  // ---------------------------------------------------------------------
  // WHERE, sizeOf, atPosition
  // ---------------------------------------------------------------------

  /** WHERE / Enumerable.Where: the elements that pass `filter`, in their original order. */
  function Where<T>(s: seq<T>, filter: T -> bool): (r: seq<T>)
    ensures |r| <= |s|
    ensures forall i :: 0 <= i < |r| ==> filter(r[i])
    ensures forall x :: x in r ==> x in s
    ensures forall i :: 0 <= i < |s| && filter(s[i]) ==> s[i] in r
    decreases |s|
  {
    if s == [] then []
    else Where(s[..|s| - 1], filter) + (if filter(s[|s| - 1]) then [s[|s| - 1]] else [])
  }

  /** Where keeps every copy of each passing element and no copy of a failing one. */
  lemma {:induction false} WhereMultiset<T>(s: seq<T>, filter: T -> bool)
    ensures forall x :: multiset(Where(s, filter))[x] == if filter(x) then multiset(s)[x] else 0
    ensures multiset(Where(s, filter)) <= multiset(s)
    decreases |s|
  {
    if s != [] {
      var init, last := s[..|s| - 1], s[|s| - 1];
      assert s == init + [last];
      WhereMultiset(init, filter);
      assert multiset(s) == multiset(init) + multiset{last};
    }
  }

  /** Filtering a concatenation filters each part: Where keeps the source order. */
  lemma {:induction false} WhereAppend<T>(a: seq<T>, b: seq<T>, filter: T -> bool)
    ensures Where(a + b, filter) == Where(a, filter) + Where(b, filter)
    decreases |b|
  {
    if b == [] {
      assert a + b == a;
    } else {
      var b' := b[..|b| - 1];
      assert (a + b)[..|a + b| - 1] == a + b';
      WhereAppend(a, b', filter);
    }
  }

  /** The filtered sequence is a subsequence of its source. */
  lemma {:induction false} WhereIsSubsequence<T>(s: seq<T>, filter: T -> bool)
    ensures IsSubsequence(Where(s, filter), s)
    decreases |s|
  {
    if s != [] {
      var init, x := s[..|s| - 1], s[|s| - 1];
      assert s == init + [x];
      WhereIsSubsequence(init, filter);
      if filter(x) {
        SubsequenceBothLonger(Where(init, filter), init, x);
      } else {
        assert Where(s, filter) == Where(init, filter);
        SubsequenceOfLonger(Where(init, filter), init, x);
      }
    }
  }

  /** A filter that every element passes changes nothing. */
  lemma {:induction false} WhereAllPass<T>(s: seq<T>, filter: T -> bool)
    requires forall i :: 0 <= i < |s| ==> filter(s[i])
    ensures Where(s, filter) == s
    decreases |s|
  {
    if s != [] {
      WhereAllPass(s[..|s| - 1], filter);
    }
  }

  /** sizeOf / Enumerable.Count: one step per element enumerated. */
  function SizeOf<T>(s: seq<T>): (n: nat)
    ensures n == |s|
    decreases |s|
  {
    if s == [] then 0 else 1 + SizeOf(s[1..])
  }

  /** atPosition / Enumerable.ElementAt: fails outside 0 .. Count - 1. */
  function AtPosition<T>(s: seq<T>, position: int): (r: Result<T, ClrException>)
    ensures r.Success? <==> 0 <= position < SizeOf(s)
    ensures r.Success? ==> r.value == s[position]
    ensures r.Failure? ==> r.error == ArgumentOutOfRange
  {
    if 0 <= position < |s| then Success(s[position]) else Failure(ArgumentOutOfRange)
  }

  // ---------------------------------------------------------------------
  // FIRST and LAST
  // ---------------------------------------------------------------------

  /** FIRST(operand, amount): `operand.Take(amount).ToArray()`. */
  function FirstN<T>(s: seq<T>, amount: int): (r: seq<T>)
    ensures |r| == Min(Max(amount, 0), SizeOf(s))
    ensures forall i :: 0 <= i < |r| ==> r[i] == s[i]
  {
    Take(s, amount)
  }

  /** FIRST(operand): `FIRST(operand, 1)[0]`, which indexes past the end of an empty array. */
  function First<T>(s: seq<T>): (r: Result<T, ClrException>)
    ensures r.Success? <==> |s| > 0
    ensures r.Success? ==> r.value == s[0]
    ensures r.Failure? ==> r.error == IndexOutOfRange
  {
    var taken := FirstN(s, 1);
    if |taken| == 0 then Failure(IndexOutOfRange) else Success(taken[0])
  }

  /** FIRST(operand, filter, amount): `operand.Where(filter).Take(amount).ToArray()`. */
  function FirstWhere<T>(s: seq<T>, filter: T -> bool, amount: int): (r: seq<T>)
    ensures |r| == Min(Max(amount, 0), |Where(s, filter)|)
    ensures r == Where(s, filter)[..|r|]
    ensures forall i :: 0 <= i < |r| ==> filter(r[i])
  {
    Take(Where(s, filter), amount)
  }

  /** LAST(operand, amount): `operand.TakeLast(amount).ToArray()`. */
  function LastN<T>(s: seq<T>, amount: int): (r: seq<T>)
    ensures |r| == Min(Max(amount, 0), SizeOf(s))
    ensures forall i :: 0 <= i < |r| ==> r[i] == s[|s| - |r| + i]
  {
    TakeLast(s, amount)
  }

  /** LAST(operand): Enumerable.Last, which throws on an empty sequence. */
  function Last<T>(s: seq<T>): (r: Result<T, ClrException>)
    ensures r.Success? <==> |s| > 0
    ensures r.Success? ==> r.value == s[|s| - 1]
    ensures r.Failure? ==> r.error == InvalidOperation
  {
    if |s| == 0 then Failure(InvalidOperation) else Success(s[|s| - 1])
  }

  /** LAST(operand, filter): `operand.Where(filter).Last()`. */
  function LastWhere<T>(s: seq<T>, filter: T -> bool): (r: Result<T, ClrException>)
    ensures r.Success? <==> exists i :: 0 <= i < |s| && filter(s[i])
    ensures r.Success? ==> filter(r.value) && r.value in s
    ensures r.Failure? ==> r.error == InvalidOperation
  {
    var matching := Where(s, filter);
    assert forall i :: 0 <= i < |s| && filter(s[i]) ==> |matching| > 0;
    assert |matching| > 0 ==> matching[0] in s && filter(matching[0]);
    Last(matching)
  }

  /** LAST(operand, filter, amount): `operand.Where(filter).TakeLast(amount).ToArray()`. */
  function LastWhereN<T>(s: seq<T>, filter: T -> bool, amount: int): (r: seq<T>)
    ensures |r| == Min(Max(amount, 0), |Where(s, filter)|)
    ensures r == Where(s, filter)[|Where(s, filter)| - |r|..]
    ensures forall i :: 0 <= i < |r| ==> filter(r[i])
  {
    TakeLast(Where(s, filter), amount)
  }

  /** Reference definition for LAST(operand, filter): the index of the last match, or -1. */
  function LastMatch<T>(s: seq<T>, filter: T -> bool): (k: int)
    ensures -1 <= k < |s|
    ensures k >= 0 ==> filter(s[k])
    ensures forall j :: k < j < |s| ==> !filter(s[j])
    decreases |s|
  {
    if s == [] then -1
    else if filter(s[|s| - 1]) then |s| - 1
    else LastMatch(s[..|s| - 1], filter)
  }

  /** LAST(operand, filter) is the element at the last index whose element passes the filter. */
  lemma {:induction false} LastWhereIsLastMatch<T>(s: seq<T>, filter: T -> bool)
    ensures LastWhere(s, filter) ==
      if LastMatch(s, filter) < 0 then Failure(InvalidOperation) else Success(s[LastMatch(s, filter)])
    decreases |s|
  {
    if s != [] && !filter(s[|s| - 1]) {
      var init := s[..|s| - 1];
      LastWhereIsLastMatch(init, filter);
      assert Where(s, filter) == Where(init, filter);
    }
  }

  /** The first `n` and the last `|s| - n` elements put back together give `s`. */
  lemma FirstNThenLastN<T>(s: seq<T>, n: int)
    requires 0 <= n <= |s|
    ensures FirstN(s, n) + LastN(s, |s| - n) == s
  {
    assert FirstN(s, n) == s[..n];
    assert LastN(s, |s| - n) == s[n..];
  }

  /** The single-element forms agree with atPosition and with the count forms. */
  lemma SingleElementForms<T>(s: seq<T>)
    requires |s| > 0
    ensures First(s) == AtPosition(s, 0)
    ensures Last(s) == AtPosition(s, SizeOf(s) - 1)
    ensures FirstN(s, 1) == [First(s).value]
    ensures LastN(s, 1) == [Last(s).value]
  {
  }

  /** When every element passes, the filtered forms are the unfiltered ones. */
  lemma FilterThatKeepsAll<T>(s: seq<T>, filter: T -> bool, amount: int)
    requires forall i :: 0 <= i < |s| ==> filter(s[i])
    ensures FirstWhere(s, filter, amount) == FirstN(s, amount)
    ensures LastWhereN(s, filter, amount) == LastN(s, amount)
    ensures LastWhere(s, filter) == Last(s)
  {
    WhereAllPass(s, filter);
  }

  // ---------------------------------------------------------------------
  // Membership
  // ---------------------------------------------------------------------

  /** ONE_OF(x, xs): `xs.Any(i => i.Equals(x))`. */
  function OneOf<T(==)>(x: T, xs: seq<T>): (b: bool)
    ensures b <==> x in xs
  {
    Any(xs, i => i == x)
  }

  /** AT_LEAST_ONE_OF: the same test as ONE_OF. */
  function AtLeastOneOf<T(==)>(x: T, xs: seq<T>): (b: bool)
    ensures b <==> x in xs
  {
    OneOf(x, xs)
  }

  /** NONE_OF: the negation of AT_LEAST_ONE_OF. */
  function NoneOf<T(==)>(x: T, xs: seq<T>): (b: bool)
    ensures b <==> x !in xs
  {
    !AtLeastOneOf(x, xs)
  }

  // ---------------------------------------------------------------------
  // Equality, emptiness and IComparable comparisons (over int)
  // ---------------------------------------------------------------------

  /** EQUALS<T>: `EqualityComparer<T>.Default.Equals`, value equality. */
  predicate Equals<T(==)>(left: T, right: T)
  {
    left == right
  }

  /** NOT_EQUALS<T>: the negation of EQUALS, whichever operand comes first. */
  predicate NotEquals<T(==)>(left: T, right: T)
    ensures NotEquals(left, right) <==> !Equals(right, left)
  {
    !Equals(left, right)
  }

  /** EMPTY: the operand is null. */
  predicate Empty<T>(operand: Option<T>)
  {
    operand.None?
  }

  /** NOT_EMPTY: the operand holds a value. */
  predicate NotEmpty<T>(operand: Option<T>)
  {
    !Empty(operand)
  }

  /**
    EMPTY tests for null and nothing else: an empty string or an empty array
    is a value, so it is NOT_EMPTY.  Exactly one of the two holds.
  */
  lemma NullTests<T>(operand: Option<T>, v: T)
    ensures Empty<T>(None) && !NotEmpty<T>(None)
    ensures !Empty(Some(v)) && NotEmpty(Some(v))
    ensures NotEmpty(operand) != Empty(operand)
    ensures !Empty(Some("")) && !Empty<seq<int>>(Some([]))
  {
  }

  /**
    The membership operators are EQUALS and NOT_EQUALS applied element by
    element, and EQUALS is an equivalence: ONE_OF asks `Equals` of each
    array element, NONE_OF finds every element `NotEquals`.
  */
  lemma MembershipByEquals<T>(x: T, y: T, z: T, xs: seq<T>)
    ensures OneOf(x, xs) <==> exists i :: 0 <= i < |xs| && Equals(xs[i], x)
    ensures AtLeastOneOf(x, xs) == OneOf(x, xs)
    ensures NoneOf(x, xs) <==> forall i :: 0 <= i < |xs| ==> NotEquals(xs[i], x)
    ensures Equals(x, x)
    ensures Equals(x, y) == Equals(y, x)
    ensures Equals(x, y) && Equals(y, z) ==> Equals(x, z)
  {
  }

  /** Int32.CompareTo: -1, 0 or 1. */
  function CompareTo(left: int, right: int): (c: int)
    ensures -1 <= c <= 1
    ensures c < 0 <==> left < right
    ensures c == 0 <==> left == right
    ensures c > 0 <==> left > right
  {
    if left < right then -1 else if left > right then 1 else 0
  }

  /** LESS_THAN: `CompareTo(...) < 0`. */
  predicate LessThan(left: int, right: int)
    ensures LessThan(left, right) <==> left < right
  {
    CompareTo(left, right) < 0
  }

  /** GREATER_THAN: `CompareTo(...) > 0`. */
  predicate GreaterThan(left: int, right: int)
    ensures GreaterThan(left, right) <==> left > right
  {
    CompareTo(left, right) > 0
  }

  /** LESS_OR_EQUALS: `CompareTo(...) <= 0`. */
  predicate LessOrEquals(left: int, right: int)
    ensures LessOrEquals(left, right) <==> left <= right
  {
    CompareTo(left, right) <= 0
  }

  /** GREATER_OR_EQUALS: `CompareTo(...) >= 0`. */
  predicate GreaterOrEquals(left: int, right: int)
    ensures GreaterOrEquals(left, right) <==> left >= right
  {
    CompareTo(left, right) >= 0
  }

  /** The four comparisons are consistent with each other and with EQUALS. */
  lemma ComparisonsConsistent(left: int, right: int)
    ensures LessOrEquals(left, right) <==> !GreaterThan(left, right)
    ensures GreaterOrEquals(left, right) <==> !LessThan(left, right)
    ensures LessThan(left, right) <==> GreaterThan(right, left)
    ensures LessOrEquals(left, right) && GreaterOrEquals(left, right) <==> Equals(left, right)
  {
  }

  // ---------------------------------------------------------------------
  // DistinctBy
  // ---------------------------------------------------------------------

  /** The keys of the elements of `s`. */
  function KeysOf<T, K(==)>(s: seq<T>, key: T -> K): set<K>
  {
    set i | 0 <= i < |s| :: key(s[i])
  }

  lemma KeysOfSnoc<T, K>(s: seq<T>, x: T, key: T -> K)
    ensures KeysOf(s + [x], key) == KeysOf(s, key) + {key(x)}
  {
    var s' := s + [x];
    assert forall i :: 0 <= i < |s| ==> s'[i] == s[i];
    assert s'[|s|] == x;
  }

  /**
    The elements DistinctBy yields: each element whose key was not seen before.
    Its keys are those of `s`, and no two of its elements share a key.
  */
  function FirstOfEachKey<T, K(==)>(s: seq<T>, key: T -> K): (r: seq<T>)
    ensures |r| <= |s|
    ensures forall i :: 0 <= i < |r| ==> r[i] in s
    ensures KeysOf(r, key) == KeysOf(s, key)
    ensures forall i, j :: 0 <= i < j < |r| ==> key(r[i]) != key(r[j])
    decreases |s|
  {
    if s == [] then []
    else
      var init, x := s[..|s| - 1], s[|s| - 1];
      var kept := FirstOfEachKey(init, key);
      KeysOfSnoc(init, x, key);
      assert s == init + [x];
      if key(x) in KeysOf(kept, key) then kept
      else
        KeysOfSnoc(kept, x, key);
        kept + [x]
  }

  /** DistinctBy yields a subsequence of its source. */
  lemma {:induction false} FirstOfEachKeyIsSubsequence<T, K>(s: seq<T>, key: T -> K)
    ensures IsSubsequence(FirstOfEachKey(s, key), s)
    decreases |s|
  {
    if s != [] {
      var init, x := s[..|s| - 1], s[|s| - 1];
      assert s == init + [x];
      var kept := FirstOfEachKey(init, key);
      FirstOfEachKeyIsSubsequence(init, key);
      if key(x) in KeysOf(kept, key) {
        SubsequenceOfLonger(kept, init, x);
      } else {
        SubsequenceBothLonger(kept, init, x);
      }
    }
  }

  /** `s[i]` is the first element of `s` with its key. */
  ghost predicate IsFirstOccurrence<T, K>(s: seq<T>, key: T -> K, i: int)
    requires 0 <= i < |s|
  {
    forall j :: 0 <= j < i ==> key(s[j]) != key(s[i])
  }

  /** DistinctBy keeps the first occurrence of every key. */
  lemma {:induction false} FirstOfEachKeyKeepsFirst<T, K>(s: seq<T>, key: T -> K, i: int)
    requires 0 <= i < |s| && IsFirstOccurrence(s, key, i)
    ensures s[i] in FirstOfEachKey(s, key)
    decreases |s|
  {
    var init, x := s[..|s| - 1], s[|s| - 1];
    assert s == init + [x];
    var kept := FirstOfEachKey(init, key);
    if i < |s| - 1 {
      assert IsFirstOccurrence(init, key, i);
      FirstOfEachKeyKeepsFirst(init, key, i);
    } else {
      assert key(x) !in KeysOf(init, key);
    }
  }

  /**
    The first occurrences among the first `n` elements of `s`, in source order:
    a reference for DistinctBy written without a set of seen keys.
  */
  ghost function FirstOccurrencesUpTo<T, K>(s: seq<T>, key: T -> K, n: int): seq<T>
    requires 0 <= n <= |s|
    decreases n
  {
    if n == 0 then []
    else FirstOccurrencesUpTo(s, key, n - 1) + (if IsFirstOccurrence(s, key, n - 1) then [s[n - 1]] else [])
  }

  /** `x` is the first element with its key among the first `n` elements of `s`. */
  ghost predicate IsFirstWithin<T, K>(s: seq<T>, key: T -> K, n: int, x: T)
    requires 0 <= n <= |s|
  {
    exists k :: 0 <= k < n && IsFirstOccurrence(s, key, k) && x == s[k]
  }

  /** Every element of the reference is the first occurrence of its key within the first `n` elements. */
  lemma {:induction false} FirstOccurrencesAreFirst<T, K>(s: seq<T>, key: T -> K, n: int)
    requires 0 <= n <= |s|
    ensures forall x :: x in FirstOccurrencesUpTo(s, key, n) ==> IsFirstWithin(s, key, n, x)
    decreases n
  {
    if n > 0 {
      FirstOccurrencesAreFirst(s, key, n - 1);
      forall x | x in FirstOccurrencesUpTo(s, key, n - 1)
        ensures IsFirstWithin(s, key, n, x)
      {
        var k :| 0 <= k < n - 1 && IsFirstOccurrence(s, key, k) && x == s[k];
      }
      if IsFirstOccurrence(s, key, n - 1) {
        assert IsFirstWithin(s, key, n, s[n - 1]);
      }
    }
  }

  /** DistinctBy yields exactly the first occurrences, in the order of the source. */
  lemma {:induction false} FirstOfEachKeyInOrder<T, K>(s: seq<T>, key: T -> K, n: int)
    requires 0 <= n <= |s|
    ensures FirstOfEachKey(s[..n], key) == FirstOccurrencesUpTo(s, key, n)
    decreases n
  {
    if n > 0 {
      var prefix, init := s[..n], s[..n - 1];
      assert prefix[..n - 1] == init;
      assert prefix[n - 1] == s[n - 1];
      FirstOfEachKeyInOrder(s, key, n - 1);
      if !IsFirstOccurrence(s, key, n - 1) {
        var j :| 0 <= j < n - 1 && key(s[j]) == key(s[n - 1]);
        assert init[j] == s[j];
        assert key(s[n - 1]) in KeysOf(init, key);
      }
    }
  }

  /**
    DistinctBy: iterate the source, adding each key to `seenKeys` and yielding the
    element when the key was new (HashSet.Add returned true).
  */
  method DistinctBy<T, K(==)>(source: seq<T>, keySelector: T -> K) returns (r: seq<T>)
    ensures r == FirstOfEachKey(source, keySelector)
  {
    var seenKeys: set<K> := {};
    r := [];
    for i := 0 to |source|
      invariant r == FirstOfEachKey(source[..i], keySelector)
      invariant seenKeys == KeysOf(r, keySelector)
    {
      var k := keySelector(source[i]);
      assert source[..i + 1][..i] == source[..i];
      if k !in seenKeys {
        KeysOfSnoc(r, source[i], keySelector);
        seenKeys := seenKeys + {k};
        r := r + [source[i]];
      }
    }
    assert source[..|source|] == source;
  }

  /** DistinctBy keeps the first occurrence of every key (all indices at once). */
  lemma FirstOfEachKeyKeepsAllFirst<T, K>(s: seq<T>, key: T -> K)
    ensures forall i :: 0 <= i < |s| && IsFirstOccurrence(s, key, i) ==> s[i] in FirstOfEachKey(s, key)
  {
    forall i | 0 <= i < |s| && IsFirstOccurrence(s, key, i)
      ensures s[i] in FirstOfEachKey(s, key)
    {
      FirstOfEachKeyKeepsFirst(s, key, i);
    }
  }

  /** When no two elements share a key, DistinctBy yields its whole source. */
  lemma {:induction false} FirstOfEachKeyOfDistinctKeys<T, K>(s: seq<T>, key: T -> K)
    requires forall i, j :: 0 <= i < j < |s| ==> key(s[i]) != key(s[j])
    ensures FirstOfEachKey(s, key) == s
    decreases |s|
  {
    if s != [] {
      var init, x := s[..|s| - 1], s[|s| - 1];
      FirstOfEachKeyOfDistinctKeys(init, key);
      assert key(x) !in KeysOf(init, key);
    }
  }
}

=== FILE: validation.dfy ===
/**
  The rule engine of the C# HUMLFramework: rules are appended to a framework,
  `validate` runs the enabled ones against a model, and each rule that reports
  an error is appended to an OpenValidationSummary.  Every rule of one framework
  is written for the same model type `M`.  C# `null` strings and arrays are
  `None`.
*/
module Validation {
  import opened Wrappers
  import opened Operators

  // ---------------------------------------------------------------------
  // String helpers the rule engine relies on
  // ---------------------------------------------------------------------

  /** char.IsWhiteSpace: the Unicode space separators, line and paragraph separators, and U+0009-U+000D, U+0085. */
  predicate IsWhiteSpace(c: char)
  {
    || c == ' ' || '\t' <= c <= '\r' || c == '\U{0085}' || c == '\U{00A0}' || c == '\U{1680}'
    || '\U{2000}' <= c <= '\U{200A}' || c == '\U{2028}' || c == '\U{2029}' || c == '\U{202F}'
    || c == '\U{205F}' || c == '\U{3000}'
  }

  /** String.IsNullOrWhiteSpace. */
  predicate IsNullOrWhiteSpace(s: Option<string>)
  {
    s.None? || forall i :: 0 <= i < |s.value| ==> IsWhiteSpace(s.value[i])
  }

  /** String.IsNullOrEmpty. */
  predicate IsNullOrEmpty(s: Option<string>)
  {
    s.None? || s.value == ""
  }

  /** The case folding of InvariantCultureIgnoreCase, restricted to the ASCII letters. */
  function FoldCase(c: char): char
  {
    if 'A' <= c <= 'Z' then (c as int + 32) as char else c
  }

  /** String.Equals(other, StringComparison.InvariantCultureIgnoreCase), with ASCII case folding. */
  predicate EqualsIgnoreCase(a: string, b: string)
  {
    |a| == |b| && forall i :: 0 <= i < |a| ==> FoldCase(a[i]) == FoldCase(b[i])
  }

  /** Folding never turns a character into white space, so only white space matches white space. */
  lemma FoldedWhiteSpace(c: char, w: char)
    requires IsWhiteSpace(w) && FoldCase(c) == FoldCase(w)
    ensures c == w
  {
  }

  // ---------------------------------------------------------------------
  // Rules, results and variables
  // ---------------------------------------------------------------------

  /** ValidationRule<T>: a named condition that, when it holds of the model, reports `error` on `fields`. */
  datatype ValidationRule<!M> = ValidationRule(
    name: Option<string>,
    fields: Option<seq<string>>,
    error: Option<string>,
    condition: M -> bool,
    disabled: bool)
  {
    /** HasError: the error text is neither null nor empty. */
    predicate HasError()
      ensures HasError() <==> error.Some? && |error.value| > 0
    {
      !IsNullOrEmpty(error)
    }

    /** CreateResult: a result carrying `rule` when `isInvalid` holds of the model, an empty result otherwise. */
    function CreateResult(model: M, rule: ValidationRule<M>, isInvalid: M -> bool): (r: ValidationResult<M>)
      ensures r.rule.Some? <==> isInvalid(model)
      ensures r.rule.Some? ==> r.rule.value == rule
      ensures r.GetError() == (if isInvalid(model) then rule.error else None)
    {
      if isInvalid(model) then ValidationResult(Some(rule)) else ValidationResult(None)
    }

    /** Validate: CreateResult with the rule itself and its own condition. */
    function Validate(model: M): (r: ValidationResult<M>)
      ensures r.rule.Some? ==> r.rule.value == this
      ensures r.HasErrors() <==> condition(model) && error.Some?
    {
      CreateResult(model, this, condition)
    }

    /** ExecuteCondition: the rule's condition applied to the model. */
    function ExecuteCondition(model: M): (b: bool)
      ensures b <==> Validate(model).rule.Some?
    {
      condition(model)
    }
  }

  /** The four-argument ValidationRule constructor, which leaves Error null. */
  function RuleWithoutError<M>(name: Option<string>, fields: Option<seq<string>>, condition: M -> bool, disabled: bool)
    : (r: ValidationRule<M>)
    ensures !r.HasError() && !IsEnabled(r)
  {
    ValidationRule(name, fields, None, condition, disabled)
  }

  /** ValidationResult<T>: the rule that fired, or null. */
  datatype ValidationResult<!M> = ValidationResult(rule: Option<ValidationRule<M>>)
  {
    /** GetError: the fired rule's error text, null when no rule fired. */
    function GetError(): Option<string>
    {
      if rule.Some? then rule.value.error else None
    }

    /** HasErrors: GetError() is not null. */
    predicate HasErrors()
      ensures HasErrors() <==> rule.Some? && rule.value.error.Some?
    {
      GetError().Some?
    }
  }

  /** Variable<TM, T>: a named value computed from the model. */
  datatype Variable<!M, T> = Variable(name: Option<string>, valueFunc: M -> T)
  {
    /** GetValue: the value function applied to the model. */
    function GetValue(model: M): T
    {
      valueFunc(model)
    }
  }

  // ---------------------------------------------------------------------
  // The summary
  // ---------------------------------------------------------------------

  /** OpenValidationSummaryError: an error text and the fields it concerns. */
  datatype SummaryError = SummaryError(error: string, fields: Option<seq<string>>)

  /** The key GeErrors de-duplicates by: the error text. */
  function ErrorText(e: SummaryError): string
  {
    e.error
  }

  /** `Where(e => e.Fields != null).SelectMany(e => e.Fields)`: the fields of the errors, in order. */
  function FieldsOf(errors: seq<SummaryError>): (r: seq<string>)
    ensures forall f :: f in r ==>
      exists k :: 0 <= k < |errors| && errors[k].fields.Some? && f in errors[k].fields.value
    ensures forall k, f :: 0 <= k < |errors| && errors[k].fields.Some? && f in errors[k].fields.value ==> f in r
    decreases |errors|
  {
    if errors == [] then []
    else
      var init, last := errors[..|errors| - 1], errors[|errors| - 1];
      assert forall k :: 0 <= k < |init| ==> init[k] == errors[k];
      FieldsOf(init) + (if last.fields.Some? then last.fields.value else [])
  }

  /** SelectMany keeps order: the fields of a concatenation are those of each part, in turn. */
  lemma {:induction false} FieldsOfAppend(a: seq<SummaryError>, b: seq<SummaryError>)
    ensures FieldsOf(a + b) == FieldsOf(a) + FieldsOf(b)
    decreases |b|
  {
    if b == [] {
      assert a + b == a;
    } else {
      var b' := b[..|b| - 1];
      assert (a + b)[..|a + b| - 1] == a + b';
      FieldsOfAppend(a, b');
    }
  }

  /** A field of the de-duplicated errors belongs to the first error with some text. */
  lemma FieldsOfFirstErrors(errors: seq<SummaryError>)
    ensures forall f :: f in FieldsOf(FirstOccurrencesUpTo(errors, ErrorText, |errors|)) ==>
      exists k :: 0 <= k < |errors| && IsFirstOccurrence(errors, ErrorText, k) &&
        errors[k].fields.Some? && f in errors[k].fields.value
  {
    var distinct := FirstOccurrencesUpTo(errors, ErrorText, |errors|);
    FirstOccurrencesAreFirst(errors, ErrorText, |errors|);
    forall f | f in FieldsOf(distinct)
      ensures exists k ::
          0 <= k < |errors| && IsFirstOccurrence(errors, ErrorText, k) &&
          errors[k].fields.Some? && f in errors[k].fields.value
    {
      var m :| 0 <= m < |distinct| && distinct[m].fields.Some? && f in distinct[m].fields.value;
      assert IsFirstWithin(errors, ErrorText, |errors|, distinct[m]);
    }
  }

  /** OpenValidationSummary: the errors collected so far, rebuilt as a new array on every append. */
  class Summary {
    var errors: seq<SummaryError>

    /** A new summary has no errors. */
    constructor ()
      ensures errors == []
    {
      errors := [];
    }

    /** AppendError: copy the errors into a list, add one, and store the list as the new array. */
    method AppendError(error: string, fields: Option<seq<string>>)
      modifies this
      ensures errors == old(errors) + [SummaryError(error, fields)]
      ensures HasErrors()
    {
      var rebuilt := errors;
      rebuilt := rebuilt + [SummaryError(error, fields)];
      errors := rebuilt;
    }

    /** HasErrors: the error array is non-empty. */
    predicate HasErrors()
      reads this
      ensures HasErrors() <==> errors != []
    {
      |errors| > 0
    }

    /**
      GeErrors: the errors, keeping only the first of those that share an error
      text, in the order of Errors.
    */
    function DistinctErrors(): (r: seq<SummaryError>)
      reads this
      ensures r == FirstOccurrencesUpTo(errors, ErrorText, |errors|)
      ensures IsSubsequence(r, errors)
      ensures |r| <= |errors|
      ensures forall i, j :: 0 <= i < j < |r| ==> r[i].error != r[j].error
      ensures forall i :: 0 <= i < |r| ==> r[i] in errors
      ensures forall k :: 0 <= k < |errors| && IsFirstOccurrence(errors, ErrorText, k) ==> errors[k] in r
    {
      FirstOfEachKeyKeepsAllFirst(errors, ErrorText);
      FirstOfEachKeyIsSubsequence(errors, ErrorText);
      FirstOfEachKeyInOrder(errors, ErrorText, |errors|);
      assert errors[..|errors|] == errors;
      FirstOfEachKey(errors, ErrorText)
    }

    /** Fields: the fields of the de-duplicated errors whose Fields are not null, concatenated. */
    function Fields(): (r: seq<string>)
      reads this
      ensures forall f :: f in r ==>
        exists k :: 0 <= k < |errors| && IsFirstOccurrence(errors, ErrorText, k) &&
          errors[k].fields.Some? && f in errors[k].fields.value
      ensures forall k, f ::
        (0 <= k < |errors| && IsFirstOccurrence(errors, ErrorText, k) &&
         errors[k].fields.Some? && f in errors[k].fields.value) ==> f in r
    {
      var distinct := DistinctErrors();
      FieldsOfFirstErrors(errors);
      FieldsOf(distinct)
    }
  }

  /** When every error text is different, GeErrors keeps every error and Fields sees all their fields. */
  lemma DistinctTextsKeepAllFields(errors: seq<SummaryError>)
    requires forall i, j :: 0 <= i < j < |errors| ==> errors[i].error != errors[j].error
    ensures FirstOfEachKey(errors, ErrorText) == errors
    ensures FieldsOf(FirstOfEachKey(errors, ErrorText)) == FieldsOf(errors)
  {
    FirstOfEachKeyOfDistinctKeys(errors, ErrorText);
  }

  /** Two errors with the same text: the second one's fields do not reach Fields. */
  lemma RepeatedTextDropsLaterFields()
    ensures FieldsOf(FirstOfEachKey([SummaryError("error", Some(["a"])), SummaryError("error", Some(["b"]))], ErrorText))
      == ["a"]
  {
    var s := [SummaryError("error", Some(["a"])), SummaryError("error", Some(["b"]))];
    assert s[..1] == [s[0]];
    assert FirstOfEachKey(s[..1], ErrorText) == [s[0]];
    assert ErrorText(s[1]) in KeysOf([s[0]], ErrorText);
  }

  // ---------------------------------------------------------------------
  // What validate reports
  // ---------------------------------------------------------------------

  /** getEnabledRules' filter: not disabled and with an error text. */
  predicate IsEnabled<M>(rule: ValidationRule<M>)
  {
    !rule.disabled && rule.HasError()
  }

  /** A rule that validate turns into an error for this model. */
  predicate Fires<M>(rule: ValidationRule<M>, model: M)
  {
    IsEnabled(rule) && rule.condition(model)
  }

  /** The summary entry a firing rule produces: its error text and its fields. */
  function Report<M>(rule: ValidationRule<M>): SummaryError
    requires rule.error.Some?
  {
    SummaryError(rule.error.value, rule.fields)
  }

  /** The errors validate collects from `rules`, in rule order. */
  function Reported<M>(rules: seq<ValidationRule<M>>, model: M): seq<SummaryError>
    decreases |rules|
  {
    if rules == [] then []
    else
      var rule := rules[|rules| - 1];
      Reported(rules[..|rules| - 1], model) + (if Fires(rule, model) then [Report(rule)] else [])
  }

  /** Errors from a concatenation of rule lists are the errors of the first list followed by those of the second. */
  lemma {:induction false} ReportedAppend<M>(a: seq<ValidationRule<M>>, b: seq<ValidationRule<M>>, model: M)
    ensures Reported(a + b, model) == Reported(a, model) + Reported(b, model)
    decreases |b|
  {
    if b == [] {
      assert a + b == a;
    } else {
      var b' := b[..|b| - 1];
      assert (a + b)[..|a + b| - 1] == a + b';
      ReportedAppend(a, b', model);
    }
  }

  /** Filtering out the disabled and error-less rules first changes nothing. */
  lemma {:induction false} ReportedOfEnabled<M>(rules: seq<ValidationRule<M>>, model: M)
    ensures Reported(Where(rules, IsEnabled), model) == Reported(rules, model)
    decreases |rules|
  {
    if rules != [] {
      var init, rule := rules[..|rules| - 1], rules[|rules| - 1];
      ReportedOfEnabled(init, model);
      if IsEnabled(rule) {
        var w := Where(init, IsEnabled) + [rule];
        assert w[..|w| - 1] == Where(init, IsEnabled);
      } else {
        assert Where(rules, IsEnabled) == Where(init, IsEnabled);
      }
    }
  }

  /** The i-th reported error is the report of the i-th rule that fires. */
  lemma {:induction false} ReportedAreFiringRules<M>(rules: seq<ValidationRule<M>>, model: M)
    ensures |Reported(rules, model)| == |Where(rules, r => Fires(r, model))|
    ensures forall j :: 0 <= j < |Reported(rules, model)| ==>
      Reported(rules, model)[j] == Report(Where(rules, r => Fires(r, model))[j])
    decreases |rules|
  {
    if rules != [] {
      ReportedAreFiringRules(rules[..|rules| - 1], model);
    }
  }

  /** Validate reports something exactly when some enabled rule's condition holds of the model. */
  lemma ReportedEmptyIff<M>(rules: seq<ValidationRule<M>>, model: M)
    ensures Reported(rules, model) == [] <==> forall i :: 0 <= i < |rules| ==> !Fires(rules[i], model)
  {
    ReportedAreFiringRules(rules, model);
    var w := Where(rules, r => Fires(r, model));
    assert |w| > 0 ==> w[0] in rules;
  }

  // ---------------------------------------------------------------------
  // GetRule, as written
  // ---------------------------------------------------------------------

  /** The message of the exception GetRule throws when no rule matches. */
  function NotFoundMessage(ruleName: string): string
  {
    "Rule with name: \"" + ruleName + "\" could not be found."
  }

  /**
    `Rules.Where(r => String.IsNullOrWhiteSpace(r.Name) && r.Name.Equals(ruleName, ...)).FirstOrDefault()`,
    evaluated rule by rule: a rule with a non-blank name is skipped, the first rule with a null
    name throws, and a rule with a white-space name is returned when it equals `ruleName`.
  */
  function SelectRule<M>(rules: seq<ValidationRule<M>>, ruleName: string): (r: Result<ValidationRule<M>, ClrException>)
    ensures r.Success? ==> r.value in rules
    ensures r.Success? ==> r.value.name.Some? && IsNullOrWhiteSpace(r.value.name)
    ensures r.Success? ==> EqualsIgnoreCase(r.value.name.value, ruleName)
    ensures r.Failure? ==> r.error in {NullReference, Exception(NotFoundMessage(ruleName))}
    decreases |rules|
  {
    if rules == [] then Failure(Exception(NotFoundMessage(ruleName)))
    else
      var rule := rules[0];
      if !IsNullOrWhiteSpace(rule.name) then SelectRule(rules[1..], ruleName)
      else if rule.name.None? then Failure(NullReference)
      else if EqualsIgnoreCase(rule.name.value, ruleName) then Success(rule)
      else SelectRule(rules[1..], ruleName)
  }

  /** A rule name with any non-white-space character is never found, whatever the rules are. */
  lemma NamedRuleNeverFound<M>(rules: seq<ValidationRule<M>>, ruleName: string)
    requires exists i :: 0 <= i < |ruleName| && !IsWhiteSpace(ruleName[i])
    ensures SelectRule(rules, ruleName).Failure?
  {
    var r := SelectRule(rules, ruleName);
    if r.Success? {
      var i :| 0 <= i < |ruleName| && !IsWhiteSpace(ruleName[i]);
      FoldedWhiteSpace(ruleName[i], r.value.name.value[i]);
      assert false;
    }
  }

  /**
    With no null name among the rules and no blank name equal to `ruleName`
    ignoring case, GetRule throws "could not be found".
  */
  lemma {:induction false} NoBlankNameNotFound<M>(rules: seq<ValidationRule<M>>, ruleName: string)
    requires forall i :: 0 <= i < |rules| ==>
      rules[i].name.Some? &&
      (!IsNullOrWhiteSpace(rules[i].name) || !EqualsIgnoreCase(rules[i].name.value, ruleName))
    ensures SelectRule(rules, ruleName) == Failure(Exception(NotFoundMessage(ruleName)))
    decreases |rules|
  {
    if rules != [] {
      NoBlankNameNotFound(rules[1..], ruleName);
    }
  }

  /** Reaching a rule with a null name before any match throws NullReferenceException. */
  lemma {:induction false} NullNameThrows<M>(rules: seq<ValidationRule<M>>, ruleName: string, k: int)
    requires 0 <= k < |rules| && rules[k].name.None?
    requires forall j :: 0 <= j < k ==>
      !IsNullOrWhiteSpace(rules[j].name) || (rules[j].name.Some? && !EqualsIgnoreCase(rules[j].name.value, ruleName))
    ensures SelectRule(rules, ruleName) == Failure(NullReference)
    decreases k
  {
    if k > 0 {
      NullNameThrows(rules[1..], ruleName, k - 1);
    }
  }

  /** The first rule with a blank name equal to `ruleName`, reached before any null name, is the one found. */
  lemma {:induction false} BlankNameFound<M>(rules: seq<ValidationRule<M>>, ruleName: string, k: int)
    requires 0 <= k < |rules| && rules[k].name.Some? && IsNullOrWhiteSpace(rules[k].name)
    requires EqualsIgnoreCase(rules[k].name.value, ruleName)
    requires forall j :: 0 <= j < k ==>
      !IsNullOrWhiteSpace(rules[j].name) || (rules[j].name.Some? && !EqualsIgnoreCase(rules[j].name.value, ruleName))
    ensures SelectRule(rules, ruleName) == Success(rules[k])
    decreases k
  {
    if k > 0 {
      BlankNameFound(rules[1..], ruleName, k - 1);
    }
  }

  // ---------------------------------------------------------------------
  // The framework
  // ---------------------------------------------------------------------

  /** HUMLFramework: the list of rules, appended to one by one. */
  class Framework<M> {
    var rules: seq<ValidationRule<M>>

    /** A new framework has no rules. */
    constructor ()
      ensures rules == []
    {
      rules := [];
    }

    /** appendRule: build a rule and add it at the end of Rules. */
    method AppendRule(name: Option<string>, fields: Option<seq<string>>, error: Option<string>,
                      condition: M -> bool, disabled: bool)
      returns (rule: ValidationRule<M>)
      modifies this
      ensures rule == ValidationRule(name, fields, error, condition, disabled)
      ensures rules == old(rules) + [rule]
    {
      rule := ValidationRule(name, fields, error, condition, disabled);
      rules := rules + [rule];
    }

    /** getEnabledRules: the rules that are not disabled and have an error text, in order. */
    function EnabledRules(): (r: seq<ValidationRule<M>>)
      reads this
      ensures forall i :: 0 <= i < |r| ==> IsEnabled(r[i])
      ensures forall i :: 0 <= i < |rules| && IsEnabled(rules[i]) ==> rules[i] in r
      ensures IsSubsequence(r, rules)
      ensures multiset(r) <= multiset(rules)
      ensures forall i :: 0 <= i < |rules| && IsEnabled(rules[i]) ==>
        multiset(r)[rules[i]] == multiset(rules)[rules[i]]
    {
      WhereIsSubsequence(rules, IsEnabled);
      WhereMultiset(rules, IsEnabled);
      Where(rules, IsEnabled)
    }

    /** validate: a new summary with one error per enabled rule whose condition holds, in rule order. */
    method Validate(model: M) returns (summary: Summary)
      ensures fresh(summary)
      ensures summary.errors == Reported(rules, model)
      ensures summary.HasErrors() <==> exists i :: 0 <= i < |rules| && Fires(rules[i], model)
    {
      summary := new Summary();
      var enabled := EnabledRules();
      for i := 0 to |enabled|
        invariant summary.errors == Reported(enabled[..i], model)
      {
        assert enabled[..i + 1][..i] == enabled[..i];
        var result := enabled[i].Validate(model);
        if result.HasErrors() {
          summary.AppendError(result.rule.value.error.value, result.rule.value.fields);
        }
      }
      assert enabled[..|enabled|] == enabled;
      ReportedOfEnabled(rules, model);
      ReportedEmptyIff(rules, model);
    }

    /** GetRule: the rule SelectRule picks from Rules. */
    function GetRule(model: M, ruleName: string): (r: Result<ValidationRule<M>, ClrException>)
      reads this
      ensures r.Success? ==> r.value in rules && IsNullOrWhiteSpace(r.value.name)
      ensures r.Success? ==> r.value.name.Some? && EqualsIgnoreCase(r.value.name.value, ruleName)
      ensures r.Failure? ==> r.error in {NullReference, Exception(NotFoundMessage(ruleName))}
    {
      SelectRule(rules, ruleName)
    }

    /** ValidateRule: the result of the named rule when it reports an error, null when it does not. */
    function ValidateRule(model: M, ruleName: string): (r: Result<Option<ValidationResult<M>>, ClrException>)
      reads this
      ensures r.Failure? <==> GetRule(model, ruleName).Failure?
      ensures r.Failure? ==> r.error == GetRule(model, ruleName).error
      ensures r.Success? ==> (r.value.Some? <==>
        GetRule(model, ruleName).value.condition(model) && GetRule(model, ruleName).value.error.Some?)
      ensures r.Success? && r.value.Some? ==> r.value.value.rule == Some(GetRule(model, ruleName).value)
    {
      match GetRule(model, ruleName)
      case Failure(e) => Failure(e)
      case Success(preCondition) =>
        var preConditionResult := preCondition.Validate(model);
        if preConditionResult.HasErrors() then Success(Some(ValidationResult(preConditionResult.rule)))
        else Success(None)
    }

    /** ExecuteRuleCondition: the named rule's condition applied to the model. */
    function ExecuteRuleCondition(model: M, ruleName: string): (r: Result<bool, ClrException>)
      reads this
      ensures r.Failure? <==> GetRule(model, ruleName).Failure?
      ensures r.Success? ==> r.value == GetRule(model, ruleName).value.condition(model)
    {
      match GetRule(model, ruleName)
      case Failure(e) => Failure(e)
      case Success(preCondition) => Success(preCondition.ExecuteCondition(model))
    }

    /** CreateVariable(name, value): a variable whose value does not depend on the model. */
    function CreateVariable<T>(name: Option<string>, value: T): (v: Variable<M, T>)
      ensures v.name == name
    {
      Variable(name, _ => value)
    }

    /** CreateVariable(name, valueFunc): a variable computed from the model. */
    function CreateComputedVariable<T>(name: Option<string>, valueFunc: M -> T): (v: Variable<M, T>)
      ensures v.name == name
    {
      Variable(name, valueFunc)
    }
  }

  /** A constant variable yields its value for every model; a computed one applies its function. */
  lemma VariableValues<M, T>(framework: Framework<M>, name: Option<string>, value: T, valueFunc: M -> T, model: M)
    ensures framework.CreateVariable(name, value).GetValue(model) == value
    ensures framework.CreateComputedVariable(name, valueFunc).GetValue(model) == valueFunc(model)
  {
  }

  /** A rule built without an error text never reports, even when its condition holds. */
  lemma RuleWithoutErrorNeverReports<M>(name: Option<string>, fields: Option<seq<string>>,
                                        condition: M -> bool, disabled: bool, model: M)
    ensures !RuleWithoutError(name, fields, condition, disabled).Validate(model).HasErrors()
    ensures !Fires(RuleWithoutError(name, fields, condition, disabled), model)
  {
  }

  /** Because of the inverted guard, ValidateRule and ExecuteRuleCondition fail for every non-blank rule name. */
  lemma NamedRuleNeverValidated<M>(framework: Framework<M>, model: M, ruleName: string)
    requires exists i :: 0 <= i < |ruleName| && !IsWhiteSpace(ruleName[i])
    ensures framework.ValidateRule(model, ruleName).Failure?
    ensures framework.ExecuteRuleCondition(model, ruleName).Failure?
  {
    NamedRuleNeverFound(framework.rules, ruleName);
  }

  /** Appending a rule adds at most its own error, at the end, to what validate reports. */
  lemma ReportedAfterAppend<M>(rules: seq<ValidationRule<M>>, rule: ValidationRule<M>, model: M)
    ensures Reported(rules + [rule], model) ==
      Reported(rules, model) + (if Fires(rule, model) then [Report(rule)] else [])
  {
    ReportedAppend(rules, [rule], model);
    assert [rule][..0] == [];
  }
}

=== FILE: wrappers.dfy ===
/**
  Option and Result: a .NET or Java `null` becomes `None`, a thrown exception
  becomes `Failure`.  Min and Max are shared by the C# and Java counted forms.
*/
module Wrappers {

  datatype Option<+T> = None | Some(value: T)

  datatype Result<+T, +E> = Success(value: T) | Failure(error: E)

  function Min(a: int, b: int): int { if a <= b then a else b }
  function Max(a: int, b: int): int { if a >= b then a else b }
}
